=== FILE: README.md ===
# Trigger and capture core of the AD low-noise Labber driver

This project is a Dafny model of the part of `ad_thread.py` that turns the
stream of decoded measurement batches into one "shot". A shot is the samples
between a falling edge and a rising edge of the `IN_disable` line. The model
also covers the parts of `AdThread` that only configure that logic.

- **`Capturer`** (module `CaptureBuffer`): three parallel channels (voltage,
  `IN_disable`, `IN_t`) held as one `Channels` record. It has whole-batch
  append, `stop` (append a prefix of a batch), `limit_begin`/`limit_end`
  (Python slices `[k:]`/`[:k]` on every channel, with Python's negative-index
  and clamping rules, module `PySlice`) and the `find_first` search.
- **`Acquistion`** (module `Trigger`): the ARMED/CAPTURING machine as an
  immutable record with pure step functions. It covers:
  - arming (the reset half of `wait_for_acquisition`);
  - `append`, whose first batch after arming is cut at the start offset;
  - the three outcomes of `found_raising_edge`: falling edge, rising edge and
    timeout;
  - the rate/duration setters that keep `_duration_max_sample` equal to
    `int(duration_max_s * sps)`;
  - `handle_state` from the loop in `run`.
- **`AdThread` configuration** (modules `Device` and `VersionGate`):
  - `set_quantity_sync`, with duration clamping and the reconnect flag;
  - `get_quantity_sync`;
  - the connection prologue of `run`, with the firmware-version gate done by
    Python string comparison;
  - one pass of the measurement loop.
- **Whole shots** (module `TriggerProofs`): `Feed` runs `handle_state` over any
  sequence of batches after arming. The ghost invariant `Tracks` ties the
  record to the samples received since arming. From it follow these theorems:
  - a finished shot delivers a contiguous window of the received stream;
  - when the stream's first 0 is at index `i >= 1`, that window equals an
    independent reference definition, `ExpectedWindow` (when the very first
    sample is 0, `limit_begin(-1)` keeps only the last sample instead, and
    `ExpectedWindow` is `None`);
  - a timed-out shot is longer than the timeout count.

  `TriggerExamples` works through two concrete shots from start to finish, each
  armed after `run` has applied a rate.

Some values come from code outside this model. They are parameters here:
- `RegisterFilter1` is a record with a name and a positive rate.
- `RegisterFilter1.factory` is a function argument of `SetQuantity`.
- The start offset (the decoder's `size()`) is an argument of `Arm`.
- The jumper input range is an argument of `GetQuantity`.
- The `PROGRAM` string reported by the board is an argument of `Connect`.

Python exceptions are `Err` values:
- an `IndexError` in `found_raising_edge`;
- the `ValueError` of the version gate;
- a rejected filter value;
- `max`/`min` applied to a string.

Two exceptions are modelled differently:
- The `AssertionError` of `Capturer.stop` is the `None` result of `Stop`.
- An `Err` from `SetQuantity` carries no thread. In Python the thread goes on
  running after `set_quantity_sync` raises. Line 448 also stores the
  factory's result before line 449 asserts its type, so a value of the wrong
  type would stay in `register_filter1`. Here the factory returns either a
  filter or nothing, and a rejected value leaves nothing behind.

## Model

| member | source | states |
|---|---|---|
| `CaptureBuffer.Append` | ad_thread.py:56-59 | the channels stay equal in length and grow by the batch; cutting the result at the old length gives back the old capture and the batch |
| `CaptureBuffer.Stop` | ad_thread.py:61-71 | the length assertion passes exactly for an aligned capture; the result is the old capture followed by the batch's `[:k]` prefix |
| `CaptureBuffer.LimitBegin` | ad_thread.py:125-128 | `[k:]` on every channel gives an aligned suffix whose length follows Python's rule for non-negative and negative `k` |
| `CaptureBuffer.LimitEnd` | ad_thread.py:130-133 | `[:k]` on every channel gives an aligned prefix whose length follows Python's rule for non-negative and negative `k` |
| `CaptureBuffer.LimitSplitJoins` | ad_thread.py:125-133 | for every integer `k`, `limit_end(k)` and `limit_begin(k)` split a capture into two parts that concatenate back to it |
| `CaptureBuffer.FindFirst` | ad_thread.py:73-123 | `None` exactly when the value does not occur (the empty array included); otherwise an index holding the value with no earlier occurrence |
| `CaptureBuffer.FindFirstIsUnique` | ad_thread.py:81-123 | any index that holds the value and has no earlier occurrence is the one the search returns |
| `CaptureBuffer.FindFirstExtends` | ad_thread.py:81-123 | appending samples never moves an occurrence already found |
| `Trigger.TruncTowardZero` | ad_thread.py:159-160 | `int()` of the product truncates toward zero, bounded by the real value on both sides |
| `Trigger.SetSps` | ad_thread.py:154-160 | the rate is taken from the filter, the timeout count is recomputed to agree with it, and nothing else changes |
| `Trigger.SetDurationMax` | ad_thread.py:162-169 | the duration is stored unchecked, the timeout count is recomputed to agree with it, and nothing else changes |
| `Trigger.Done` | ad_thread.py:171-173 | completion is signalled and the state is ARMED; every other field is unchanged |
| `Trigger.Arm` | ad_thread.py:180-190 | the previous shot is forgotten (no capture, flags cleared, times zero), CAPTURING from the given offset; rate, duration and the saved sample 0 survive |
| `Trigger.Append` | ad_thread.py:203-218 | the first batch after arming becomes the capture from the start offset on, later batches are appended whole; only the capture changes |
| `Trigger.FoundRaisingEdge` | ad_thread.py:220-268 | configuration is untouched; it raises exactly on a timeout with an empty capture; it times out exactly when no edge is available and the capture is strictly longer than the timeout count; it ends ARMED exactly on a rising edge or a timeout; the capture never grows |
| `Trigger.OnFallingEdge` | ad_thread.py:223-237 | the falling-edge branch keeps the state, sets the start flag, leaves the end and timeout flags alone and never reports a timeout |
| `Trigger.OnRisingEdge` | ad_thread.py:238-253 | the rising-edge branch ends ARMED with completion signalled and the end flag set, never reporting a timeout |
| `Trigger.CheckTimeout` | ad_thread.py:255-268 | times out exactly when the capture is strictly longer than the timeout count, then signals completion; raises only for an empty capture; otherwise only clears the timeout flag |
| `Trigger.HandleState` | ad_thread.py:348-361 | in ARMED a batch is dropped and nothing changes; in CAPTURING the configuration survives and a capture exists afterwards |
| `TriggerProofs.FallingEdgeStep` | ad_thread.py:223-237 | with the first 0 at `i`: the capture starts at `i-1` (for `i == 0` only the last sample is kept), sample 0 is saved and masked, `enable_start_s = i/sps`, the state stays CAPTURING and no timeout check runs |
| `TriggerProofs.RisingEdgeStep` | ad_thread.py:238-253 | with the first 1 of the masked capture at `j`: sample 0 is restored, the capture is cut to `j+1` samples, `enable_s = j/sps`, ARMED and done |
| `TriggerProofs.TimeoutStep` | ad_thread.py:255-268 | with no edge and more samples than the timeout count: the saved sample is written back to index 0, the timeout flag is set, ARMED and done, and the call returns true |
| `TriggerProofs.WithinLimitStep` | ad_thread.py:255-268 | at or below the timeout count the call only clears the timeout flag and returns false (the comparison is strict) |
| `TriggerProofs.TimeoutWithoutEdgeWritesStaleSample` | ad_thread.py:255-260 | on a timeout with no falling edge in the shot, a stale saved 0 overwrites a 1 at index 0 |
| `TriggerProofs.InitialIsInconsistent` | ad_thread.py:143-150 | the record's defaults break the rule `duration_max_sample == int(duration_max_s * sps)` until the duration or the rate is set |
| `TriggerProofs.StepsKeepConfig` | ad_thread.py:154-169 | arming, appending, `found_raising_edge` and `handle_state` all keep a consistent timeout count consistent |
| `TriggerProofs.ArmForgetsPreviousShot` | ad_thread.py:180-190 | two records with the same configuration and saved sample arm to the same record, whatever their previous shots were |
| `TriggerProofs.ArmThenAppend` | ad_thread.py:203-218 | after arming, the first batch is cut at the offset and the second one is appended whole |
| `TriggerProofs.FeedTracks` | ad_thread.py:340-361 | after arming and any run of batches the record tracks the stream received since arming, and a capture exists exactly when some batch arrived |
| `TriggerProofs.CompletedCaptureIsWindow` | ad_thread.py:220-253 | a shot that ends on the rising edge delivers a contiguous window of the received stream with a 1 last and only 0s inside; `enable_s` counts from the window's first sample |
| `TriggerProofs.ShotHasOneOutcome` | ad_thread.py:238-268 | completion is signalled exactly when the machine is back in ARMED; a completed shot reports exactly one of rising edge and timeout, and a running shot reports neither |
| `TriggerProofs.TimedOutCapture` | ad_thread.py:223-268 | a shot that ends on a timeout is ARMED and done with no rising edge, and holds more samples than the timeout count; if the falling edge came first, `enable_start_s` is the time of the stream's first 0, and otherwise it is still 0.0 and the samples the capture covered held no 0 |
| `TriggerProofs.CompletedCaptureMatchesReference` | ad_thread.py:220-253 | when the stream's first 0 is at `i >= 1`, a finished shot delivers exactly `ExpectedWindow` (from the sample before the first 0 to the first 1 after it) with `enable_start_s = i/sps` |
| `TriggerProofs.FeedStep` | ad_thread.py:340-361 | feeding one more batch is one more `handle_state` call on the record reached so far |
| `TriggerProofs.FeedKeepsConfig` | ad_thread.py:340-361 | no run of batches changes the rate, the duration or the timeout count |
| `TriggerExamples.PulseIsCapturedWithPrePostSamples` | ad_thread.py:223-253 | `IN_disable = [1,1,1,0,0,0,1,1]` followed by an empty batch yields samples 2..6, `enable_start_s = 3/sps` and `enable_s = 4/sps` |
| `TriggerExamples.ThreeBatchShot` | ad_thread.py:220-253 | batches `[1,1]`, `[0,0]`, `[1,1]` at 2 SPS yield 4 samples with `enable_start_s = 1.0` and `enable_s = 1.5` |
| `VersionGate.LessMeaning` | ad_thread.py:333-335 | Python's string `<` holds exactly when the first differing character is smaller or the left string is a proper prefix |
| `VersionGate.AcceptedMeaning` | ad_thread.py:331-338 | a firmware string passes exactly when it is not shorter than the required one and either starts with it or is greater at the first differing character |
| `VersionGate.GateExamples` | ad_thread.py:332-338 | `(0.3.11)` and `(0.3.12)` pass; `(0.3.10)`, `(0.3.9)` and the shorter `(0.4.0)` are refused |
| `Device.Clamp` | ad_thread.py:457-459 | the duration is forced into [0.001, 1000] and left alone inside it |
| `Device.ClampIdempotentMonotone` | ad_thread.py:457-461 | clamping twice is clamping once, and clamping keeps the order of two durations |
| `Device.SetQuantity` | ad_thread.py:441-463 | an unknown name changes nothing and returns `None`; a rate raises the reconnect flag exactly when the filter changes and echoes the value; a duration is clamped, stored consistently and echoed clamped, and nothing else in the acquisition changes |
| `Device.GetQuantity` | ad_thread.py:466-491 | a value is returned exactly for the eight recognised names; `"Input range"` reads the jumper range and `"sample_rate_SPS"` the chosen filter's name (what `duration_max_s` reads is stated by `SetDurationThenGet`, and what the other five read after a finished shot by the shot readout lemmas below) |
| `Device.SetDurationThenGet` | ad_thread.py:457-473 | reading a duration back returns exactly the clamped value the setter returned |
| `Device.FinishedShotReadout` | ad_thread.py:475-482 | for a finished shot, `timeout_detected` reads true exactly when `enable_end_detected` reads false |
| `Device.CompletedShotFlags` | ad_thread.py:475-482 | after a shot that ends on the rising edge, both edge flags read true and `timeout_detected` reads false |
| `Device.CompletedShotTimes` | ad_thread.py:484-488 | after such a shot with the first 0 at `i >= 1`, the capture is `ExpectedWindow`, `enable_start_s` reads `i/sps` and `enable_s` reads (window length - 1)/sps |
| `Device.TimedOutShotReadout` | ad_thread.py:475-488 | after a shot that ends on a timeout, `timeout_detected` reads true and `enable_end_detected` reads false; `enable_start_detected` and `enable_start_s` read true and the time of the stream's first 0 when a falling edge came first, and otherwise false and 0.0 |
| `Device.SetRateThenGet` | ad_thread.py:446-470 | reading a rate back names the chosen filter, while the acquisition keeps its old rate |
| `Device.RateChangeReconnects` | ad_thread.py:446-455 | a changed rate makes the next loop pass break out to reconnect, and that connection gives the acquisition the new rate |
| `Device.SameRateIsNoOp` | ad_thread.py:446-455 | setting the current filter again changes nothing |
| `Device.Connect` | ad_thread.py:321-338 | the reconnect flag is cleared and the acquisition gets the filter's rate with a consistent timeout count and nothing else changed; the firmware is refused exactly when the version gate fails |
| `Device.Iterate` | ad_thread.py:343-361 | a pending reconnect breaks out before the batch is used; otherwise only the acquisition changes and its configuration survives |
| `Device.RunIsFeed` | ad_thread.py:340-361 | without a pending reconnect, running the loop over any batches gives exactly the record `Feed` computes, and a raised `IndexError` ends the loop |
| `Device.InitIsHealthy` | ad_thread.py:286-292 | a new thread starts with a non-negative duration and timeout count |
| `Device.SetQuantityKeepsHealthy` | ad_thread.py:457-461 | clamping keeps the duration and timeout count non-negative |
| `Device.ConnectKeepsHealthy` | ad_thread.py:321-330 | applying the rate on connection keeps the timeout count non-negative |
| `Device.IterateNeverRaises` | ad_thread.py:340-361 | on a thread configured only through these calls, no loop pass raises |

## Notes on the code

Some consequences of the code that are easy to misread:

- **Window of a pulse.** The rising edge is cut with `limit_end(j + 1)`, so
  for `IN_disable = [1,1,1,0,0,0,1,1]` the shot holds samples 2..6: the
  pre-roll sample, the three 0s and the first 1. `enable_s` is `4/sps`,
  counted from the pre-roll sample, not from the start of the stream
  (`TriggerExamples.PulseIsCapturedWithPrePostSamples`).
- **Three batches.** For batches `[1,1]`, `[0,0]`, `[1,1]` at 2 SPS the code
  delivers 4 samples, with `enable_start_s = 1.0` and `enable_s = 1.5`
  (`TriggerExamples.ThreeBatchShot`).
- **Timeout count.** The timeout fires only when the capture is strictly
  longer than `int(duration_max_s * sps)` samples (`WithinLimitStep`), so a
  10-sample limit fires at the 11th sample.
- **Version gate.** The gate is a plain string comparison plus a length test.
  It therefore refuses `(0.4.0)`, which is shorter than the required string
  (`GateExamples`).
- **Start offset in bytes.** `wait_measurements` passes
  `self.ad.decoder.size()` as the sample offset (line 432), and `append`
  slices the first batch with it (lines 208-210). The code's own log lines
  treat `size()` as a byte count: line 325 labels it "Bytes", and line 369
  divides it by 3 to get samples. The first batch is then probably cut about
  three times too far. The model keeps the offset a parameter of `Arm`, so
  its results hold for whichever offset the caller passes.
- **Initial defaults.** The defaults of `Acquistion` are inconsistent
  (`int(4.2 * 1.0)` is 4, not 42) until `run` sets the rate
  (`InitialIsInconsistent`).

## Left out

- Threading is not modelled: each computation of the core is modelled as
  sequential, and interleavings of the measurement thread with the setters
  are not. They do matter. `run` clears `ad_needs_reconnect` (line 321)
  without the lock that `set_quantity_sync` takes. A rate set after line 314
  has copied the old filter into `pcb_params`, but before line 321, is
  therefore lost: the board connects with the old filter (lines 328-330), the
  loop never reconnects, and `get_quantity_sync` still names the new filter.
  This covers `LOCK`, `synchronized`, the shared `lock` and `done_event`,
  `done_event.wait()`, `AdThread.start`/`stop`/`join` and the `_stopping` flag.
  `Done` and `Arm` model the event only as the `done` flag.
- Device I/O is not part of this model: `connect`, `iter_measurements_V`, the
  frame decoder, `pcb_status` and `wait_startup`. Their results are parameters
  (see above).
- The `time_armed_start_s` clock reading is not modelled, because nothing in
  the core reads it.
- `wait_measurements` is modelled only as `Trigger.Arm`. Its blocking wait
  and its copy of the capture into the output channels are I/O.
- All logging and the `TODO_REMOVE` and `if False:` debug branches are left
  out, because they are side effects only.
- `sps` and durations are real numbers, and voltages are opaque reals. IEEE
  rounding of `duration_max_s * sps` is not modelled.
- `Device.SetQuantity`: `max`/`min` return their argument unchanged. A
  boolean `True` given as a duration is therefore stored and echoed as `True`,
  while the model echoes `Num(1.0)`. The numeric value is the same.
- `Trigger.FoundRaisingEdge`: requires an existing capture, as every call in
  `run` follows an `append`. `TriggerProofs.Feed` models that sequence.
- `Trigger.HandleState`: the `MeasurementSequence` batch is assumed to have
  three equal-length channels (`Batch`), as the decoder produces them.
- ad_driver.py, stimuli_driver.py, stimuli_utils.py, the
  stimuli_src_micropython scenarios, ad_utils.py and logging_utils.py are not
  part of this model. They are bridge, GPIO and logging code around the core.

=== FILE: capture_buffer.dfy ===
/** The `Capturer` accumulator of `ad_thread.py`: three parallel channels, the
    measured voltage and the two digital inputs `IN_disable` and `IN_t`, grown by
    concatenation and trimmed by Python slices. */
module CaptureBuffer {
  import opened Wrappers
  import PySlice

  /** Three parallel channels. A decoded batch (`MeasurementSequence`) and the
      in-progress capture both have this shape. Voltages are opaque payload. */
  datatype Channels = Channels(voltage: seq<real>, disable: seq<bool>, t: seq<bool>)
  {
    /** All three channels hold the same number of samples. */
    predicate Aligned() {
      |voltage| == |disable| && |disable| == |t|
    }

    /** Number of samples, counted on the `IN_disable` channel as the source does. */
    function Length(): nat {
      |disable|
    }

    /** Channel-wise `this ++ other`. */
    function Concat(other: Channels): Channels {
      Channels(voltage + other.voltage, disable + other.disable, t + other.t)
    }

    /** Channel-wise Python slice `[k:]`. */
    function SliceFrom(k: int): Channels {
      Channels(PySlice.From(voltage, k), PySlice.From(disable, k), PySlice.From(t, k))
    }

    /** Channel-wise Python slice `[:k]`. */
    function SliceTo(k: int): Channels {
      Channels(PySlice.To(voltage, k), PySlice.To(disable, k), PySlice.To(t, k))
    }

    /** Samples `lo .. hi-1` of every channel (used to state where a capture lies). */
    function Window(lo: nat, hi: nat): Channels
      requires Aligned() && lo <= hi <= Length()
    {
      Channels(voltage[lo..hi], disable[lo..hi], t[lo..hi])
    }

    /** The same channels with sample 0 of `IN_disable` replaced by `b`. */
    function WithFirst(b: bool): Channels
      requires 0 < Length()
    {
      this.(disable := disable[0 := b])
    }
  }

  /** A decoded batch: three channels of equal length. */
  type Batch = c: Channels | c.Aligned() witness Channels([], [], [])

  const Empty: Channels := Channels([], [], [])

  /** `Capturer.append`: every channel grows by the whole batch. Cutting the
      result at the old length gives back the old capture and the batch. */
  function Append(c: Channels, b: Batch): (r: Channels)
    ensures c.Aligned() ==> r.Aligned() && r.Length() == c.Length() + b.Length()
    ensures c.Aligned() ==> LimitEnd(r, c.Length()) == c
    ensures c.Aligned() ==> LimitBegin(r, c.Length()) == b
  {
    c.Concat(b)
  }

  /** `Capturer.stop`: every channel grows by the first `k` samples of the batch
      (`[:k]`, Python rules), then the lengths are asserted equal. `None` is the
      failed assertion. */
  function Stop(c: Channels, b: Batch, k: int): (r: Option<Channels>)
    ensures r.Some? <==> c.Aligned()
    ensures r.Some? ==> r.value.Aligned()
    ensures r.Some? ==> LimitEnd(r.value, c.Length()) == c
    ensures r.Some? ==> LimitBegin(r.value, c.Length()) == LimitEnd(b, k)
  {
    var grown := c.Concat(b.SliceTo(k));
    if |grown.voltage| == |grown.disable| && |grown.voltage| == |grown.t| then Some(grown) else None
  }

  /** `Capturer.limit_begin`: the same Python slice `[k:]` on every channel; the
      result is a suffix whose length follows Python's rule for `k`. */
  function LimitBegin(c: Channels, k: int): (r: Channels)
    ensures r.Length() <= c.Length()
    ensures c.Aligned() ==> r.Aligned() && r == c.Window(c.Length() - r.Length(), c.Length())
    ensures 0 <= k ==> r.Length() == PySlice.Max(0, c.Length() - k)
    ensures k < 0 ==> r.Length() == PySlice.Min(c.Length(), -k)
  {
    c.SliceFrom(k)
  }

  /** `Capturer.limit_end`: the same Python slice `[:k]` on every channel; the
      result is a prefix whose length follows Python's rule for `k`. */
  function LimitEnd(c: Channels, k: int): (r: Channels)
    ensures r.Length() <= c.Length()
    ensures c.Aligned() ==> r.Aligned() && r == c.Window(0, r.Length())
    ensures 0 <= k ==> r.Length() == PySlice.Min(c.Length(), k)
    ensures k < 0 ==> r.Length() == PySlice.Max(0, c.Length() + k)
  {
    c.SliceTo(k)
  }

  /** `limit_end(k)` and `limit_begin(k)` split a capture into two parts that
      concatenate back to it. */
  lemma LimitSplitJoins(c: Channels, k: int)
    ensures LimitEnd(c, k).Concat(LimitBegin(c, k)) == c
  {
    PySlice.SplitJoins(c.voltage, k);
    PySlice.SplitJoins(c.disable, k);
    PySlice.SplitJoins(c.t, k);
  }

  /** `Capturer.find_first`: the index of the first element equal to `v`, or
      `None` when the sequence is empty or holds no `v` (`find_first0` and
      `find_first1` search for `false` and `true`). */
  function FindFirst<T(==)>(a: seq<T>, v: T): (r: Option<nat>)
    ensures r.None? <==> v !in a
    ensures r.Some? ==> r.value < |a| && a[r.value] == v
    ensures r.Some? ==> forall j :: 0 <= j < r.value ==> a[j] != v
  {
    if |a| == 0 then None else FindFrom(a, v, 0)
  }

  /** The first index at or after `k` holding `v`, if any. */
  function FindFrom<T(==)>(a: seq<T>, v: T, k: nat): (r: Option<nat>)
    requires k <= |a|
    ensures r.None? <==> forall j :: k <= j < |a| ==> a[j] != v
    ensures r.Some? ==> k <= r.value < |a| && a[r.value] == v
    ensures r.Some? ==> forall j :: k <= j < r.value ==> a[j] != v
    decreases |a| - k
  {
    if k == |a| then None
    else if a[k] == v then Some(k)
    else FindFrom(a, v, k + 1)
  }

  /** The first occurrence is unique: any index holding `v` with no `v` before it
      is the one `FindFirst` returns. */
  lemma FindFirstIsUnique<T>(a: seq<T>, v: T, i: nat)
    requires i < |a| && a[i] == v
    requires forall j :: 0 <= j < i ==> a[j] != v
    ensures FindFirst(a, v) == Some(i)
  {
    FindFromIsUnique(a, v, 0, i);
  }

  /** The same for a search that starts at `k`. */
  lemma FindFromIsUnique<T>(a: seq<T>, v: T, k: nat, i: nat)
    requires k <= i < |a| && a[i] == v
    requires forall j :: k <= j < i ==> a[j] != v
    ensures FindFrom(a, v, k) == Some(i)
  {
  }

  /** Appending samples after a found element does not move the first occurrence. */
  lemma FindFirstExtends<T>(a: seq<T>, u: seq<T>, v: T)
    requires FindFirst(a, v).Some?
    ensures FindFirst(a + u, v) == FindFirst(a, v)
  {
    var i := FindFirst(a, v).value;
    forall j | 0 <= j < i ensures (a + u)[j] != v {
      assert (a + u)[j] == a[j];
    }
    FindFirstIsUnique(a + u, v, i);
  }
}

=== FILE: device.dfy ===
/** The pure configuration parts of `AdThread`: setting and reading the named
    quantities, the per-connection prologue of `run` with its version gate,
    and one iteration of the measurement loop. */
module Device {
  import opened Wrappers
  import opened CaptureBuffer
  import opened Trigger
  import VersionGate
  import TriggerProofs

  /** A quantity value as the instrument bridge passes it. */
  datatype Value = Num(x: real) | Text(s: string) | Flag(b: bool)

  /** Exceptions the configuration layer can raise. */
  datatype Fault =
    | UnknownRate                     // `RegisterFilter1.factory` rejects the value
    | NotANumber                      // `max`/`min` applied to a string
    | FirmwareTooOld(program: string) // the version gate of `run`
    | Capture(error: Trigger.Error)   // raised inside `found_raising_edge`

  /** The fields of `AdThread` outside the device link. */
  datatype AdThread = AdThread(filter: RegisterFilter, needsReconnect: bool, acq: Acquisition)

  /** `AdThread.__init__`: the default filter (`SPS_97656`, defined outside this
      model), no pending reconnect and a fresh `Acquistion`. */
  function Init(default: RegisterFilter): AdThread {
    AdThread(default, false, Initial)
  }

  /** `max(0.001, x)` then `min(1000, x)`. */
  function Clamp(x: real): (r: real)
    ensures 0.001 <= r <= 1000.0
    ensures 0.001 <= x <= 1000.0 ==> r == x
    ensures x < 0.001 ==> r == 0.001
    ensures x > 1000.0 ==> r == 1000.0
  {
    var low := if 0.001 < x then x else 0.001;
    if low < 1000.0 then low else 1000.0
  }

  /** Clamping twice is clamping once, and it never reorders two durations. */
  lemma ClampIdempotentMonotone(x: real, y: real)
    ensures Clamp(Clamp(x)) == Clamp(x)
    ensures x <= y ==> Clamp(x) <= Clamp(y)
  {
  }

  /** The number Python's `max`/`min` see: a bool counts as 0 or 1, a string
      is not a number. */
  function Numeric(v: Value): Option<real> {
    match v
    case Num(x) => Some(x)
    case Flag(b) => Some(if b then 1.0 else 0.0)
    case Text(_) => None
  }

  /** The names `set_quantity_sync` recognises. */
  predicate Settable(name: string) {
    name == "sample_rate_SPS" || name == "duration_max_s"
  }

  /** The names `get_quantity_sync` recognises. */
  predicate Readable(name: string) {
    name in ["Input range", "sample_rate_SPS", "duration_max_s", "timeout_detected",
             "enable_start_detected", "enable_end_detected", "enable_start_s", "enable_s"]
  }

  /** The thread after the call and the returned value (`None` for an
      unrecognised name). */
  datatype Reply = Reply(thread: AdThread, echo: Option<Value>)

  /** `set_quantity_sync`. The sample rate goes through `factory`
      (`RegisterFilter1.factory`, outside this model) and raises the reconnect
      flag only when the filter changes; the duration is clamped into
      [0.001, 1000] and handed to the acquisition; any other name changes
      nothing and returns `None`. */
  function SetQuantity(t: AdThread, name: string, v: Value,
                       factory: Value -> Option<RegisterFilter>): (r: Result<Reply, Fault>)
    ensures !Settable(name) ==> r == Ok(Reply(t, None))
    ensures name == "sample_rate_SPS" ==> (r.Ok? <==> factory(v).Some?)
    ensures name == "sample_rate_SPS" && r.Ok? ==>
      var f := factory(v).value;
      r.value.echo == Some(v) && r.value.thread.filter == f && r.value.thread.acq == t.acq
      && (r.value.thread.needsReconnect <==> t.needsReconnect || f != t.filter)
    ensures name == "duration_max_s" ==> (r.Ok? <==> Numeric(v).Some?)
    ensures name == "duration_max_s" && r.Ok? ==>
      var x := Clamp(Numeric(v).value);
      r.value.echo == Some(Num(x)) && r.value.thread.acq.durationMaxS == x
      && ConfigConsistent(r.value.thread.acq)
      && r.value.thread.filter == t.filter && r.value.thread.needsReconnect == t.needsReconnect
      && r.value.thread.acq.(durationMaxS := t.acq.durationMaxS,
                             durationMaxSample := t.acq.durationMaxSample) == t.acq
  {
    if name == "sample_rate_SPS" then
      match factory(v)
      case None => Err(UnknownRate)
      case Some(f) =>
        Ok(Reply(t.(filter := f, needsReconnect := t.needsReconnect || f != t.filter), Some(v)))
    else if name == "duration_max_s" then
      match Numeric(v)
      case None => Err(NotANumber)
      case Some(x) =>
        var clamped := Clamp(x);
        Ok(Reply(t.(acq := SetDurationMax(t.acq, clamped)), Some(Num(clamped))))
    else
      Ok(Reply(t, None))
  }

  /** `get_quantity_sync`: a recognised name reads the thread's state (the input
      range is read from the board's jumpers, passed in here); any other name
      gives `None`. */
  function GetQuantity(t: AdThread, name: string, inputRange: Value): (r: Option<Value>)
    ensures r.Some? <==> Readable(name)
    ensures name == "Input range" ==> r == Some(inputRange)
    ensures name == "sample_rate_SPS" ==> r == Some(Text(t.filter.name))
  {
    if name == "Input range" then Some(inputRange)
    else if name == "sample_rate_SPS" then Some(Text(t.filter.name))
    else if name == "duration_max_s" then Some(Num(t.acq.durationMaxS))
    else if name == "timeout_detected" then Some(Flag(t.acq.timeoutDetected))
    else if name == "enable_start_detected" then Some(Flag(t.acq.enableStartDetected))
    else if name == "enable_end_detected" then Some(Flag(t.acq.enableEndDetected))
    else if name == "enable_start_s" then Some(Num(t.acq.enableStartS))
    else if name == "enable_s" then Some(Num(t.acq.enableS))
    else None
  }

  /** The per-connection prologue of `run`: clear the reconnect flag, give the
      acquisition the filter's rate, then refuse firmware that fails the
      version gate. */
  function Connect(t: AdThread, program: string): (r: Result<AdThread, Fault>)
    ensures r.Ok? <==> VersionGate.Accepted(program)
    ensures r.Err? ==> r.error == FirmwareTooOld(program)
    ensures r.Ok? ==>
      !r.value.needsReconnect && r.value.filter == t.filter
      && r.value.acq.sps == t.filter.sps && ConfigConsistent(r.value.acq)
      && r.value.acq.(sps := t.acq.sps, durationMaxSample := t.acq.durationMaxSample) == t.acq
  {
    var connected := t.(needsReconnect := false, acq := SetSps(t.acq, t.filter));
    if VersionGate.Accepted(program) then Ok(connected) else Err(FirmwareTooOld(program))
  }

  /** What one pass of the measurement loop does with a batch. */
  datatype Next = Reconnect | Continue(thread: AdThread)

  /** One pass of the loop in `run`: a pending reconnect breaks out before the
      batch is looked at; otherwise the batch goes to `handle_state`. */
  function Iterate(t: AdThread, b: Batch): (r: Result<Next, Fault>)
    ensures t.needsReconnect <==> r == Ok(Reconnect)
    ensures r.Ok? && r.value.Continue? ==>
      r.value.thread == t.(acq := r.value.thread.acq) && SameConfig(t.acq, r.value.thread.acq)
  {
    if t.needsReconnect then Ok(Reconnect)
    else
      match HandleState(t.acq, b)
      case Ok(a) => Ok(Continue(t.(acq := a)))
      case Err(e) => Err(Capture(e))
  }

  /** The `for` loop of `run` over the batches of one connection: every pass
      is `Iterate`; a reconnect or an exception ends the loop. */
  function Run(t: AdThread, bs: seq<Batch>): Result<Next, Fault>
    decreases |bs|
  {
    if |bs| == 0 then Ok(Continue(t))
    else
      match Run(t, bs[..|bs| - 1])
      case Err(e) => Err(e)
      case Ok(Reconnect) => Ok(Reconnect)
      case Ok(Continue(t1)) => Iterate(t1, bs[|bs| - 1])
  }

  /** Without a pending reconnect the loop hands every batch to `handle_state`
      in order: it ends exactly as feeding the batches to the acquisition does,
      and only the acquisition changes. */
  lemma {:induction false} RunIsFeed(t: AdThread, bs: seq<Batch>)
    requires !t.needsReconnect
    ensures TriggerProofs.Feed(t.acq, bs).Ok? ==>
      Run(t, bs) == Ok(Continue(t.(acq := TriggerProofs.Feed(t.acq, bs).value)))
    ensures TriggerProofs.Feed(t.acq, bs).Err? ==>
      Run(t, bs) == Err(Capture(TriggerProofs.Feed(t.acq, bs).error))
    decreases |bs|
  {
    if |bs| > 0 {
      RunIsFeed(t, bs[..|bs| - 1]);
    }
  }

  /** Reading back a duration returns exactly what the setter echoed. */
  lemma SetDurationThenGet(t: AdThread, v: Value, factory: Value -> Option<RegisterFilter>, range: Value)
    requires Numeric(v).Some?
    ensures var r := SetQuantity(t, "duration_max_s", v, factory);
      r.Ok? && GetQuantity(r.value.thread, "duration_max_s", range) == r.value.echo
      && r.value.echo == Some(Num(Clamp(Numeric(v).value)))
  {
  }

  /** After a rate is accepted, reading it back names the chosen filter; the
      acquisition keeps its old rate until the next connection. */
  lemma SetRateThenGet(t: AdThread, v: Value, factory: Value -> Option<RegisterFilter>, range: Value)
    requires factory(v).Some?
    ensures var r := SetQuantity(t, "sample_rate_SPS", v, factory);
      r.Ok? && GetQuantity(r.value.thread, "sample_rate_SPS", range) == Some(Text(factory(v).value.name))
      && r.value.thread.acq.sps == t.acq.sps
  {
  }

  /** A new rate reaches the acquisition through the reconnect path: the next
      loop pass breaks out, and the following connection applies the rate. */
  lemma RateChangeReconnects(t: AdThread, v: Value, factory: Value -> Option<RegisterFilter>,
                             b: Batch, program: string)
    requires factory(v).Some? && factory(v).value != t.filter
    requires VersionGate.Accepted(program)
    ensures var r := SetQuantity(t, "sample_rate_SPS", v, factory);
      r.Ok? && Iterate(r.value.thread, b) == Ok(Reconnect)
      && var c := Connect(r.value.thread, program);
         c.Ok? && c.value.acq.sps == factory(v).value.sps && !c.value.needsReconnect
  {
  }

  /** Setting the same rate again neither raises the reconnect flag nor changes
      anything else. */
  lemma SameRateIsNoOp(t: AdThread, v: Value, factory: Value -> Option<RegisterFilter>)
    requires factory(v) == Some(t.filter)
    ensures SetQuantity(t, "sample_rate_SPS", v, factory) == Ok(Reply(t, Some(v)))
  {
  }

  /** The state in which the loop never raises: a non-negative duration and
      timeout count. */
  predicate Healthy(t: AdThread) {
    t.acq.durationMaxS >= 0.0 && t.acq.durationMaxSample >= 0
  }

  /** The thread starts healthy, and every configuration call keeps it so. */
  lemma InitIsHealthy(default: RegisterFilter)
    ensures Healthy(Init(default))
  {
  }

  lemma SetQuantityKeepsHealthy(t: AdThread, name: string, v: Value,
                                factory: Value -> Option<RegisterFilter>)
    requires Healthy(t)
    ensures var r := SetQuantity(t, name, v, factory);
      r.Ok? ==> Healthy(r.value.thread)
  {
    if name == "duration_max_s" && Numeric(v).Some? {
      var x := Clamp(Numeric(v).value);
      assert 0.0 <= x * t.acq.sps;
      TruncTowardZero(x * t.acq.sps);
    }
  }

  lemma ConnectKeepsHealthy(t: AdThread, program: string)
    requires Healthy(t)
    ensures var r := Connect(t, program);
      r.Ok? ==> Healthy(r.value)
  {
    assert 0.0 <= t.acq.durationMaxS * t.filter.sps;
    TruncTowardZero(t.acq.durationMaxS * t.filter.sps);
  }

  /** On a healthy thread the capture logic never raises, and the loop stays
      healthy. */
  lemma IterateNeverRaises(t: AdThread, b: Batch)
    requires Healthy(t)
    ensures var r := Iterate(t, b);
      r.Ok? && (r.value.Continue? ==> Healthy(r.value.thread))
  {
  }

  /** Read through `get_quantity_sync`, a finished shot reports a timeout
      exactly when it does not report a rising edge. */
  lemma FinishedShotReadout(t: AdThread, offset: int, bs: seq<Batch>, range: Value)
    requires TriggerProofs.Feed(Arm(t.acq, offset), bs).Ok?
    requires TriggerProofs.Feed(Arm(t.acq, offset), bs).value.done
    ensures var u := t.(acq := TriggerProofs.Feed(Arm(t.acq, offset), bs).value);
      GetQuantity(u, "timeout_detected", range) == Some(Flag(true))
      <==> GetQuantity(u, "enable_end_detected", range) == Some(Flag(false))
  {
    TriggerProofs.ShotHasOneOutcome(t.acq, offset, bs);
  }

  /** Read through `get_quantity_sync`, a shot that ended on the rising edge
      reports both edges and no timeout. */
  lemma CompletedShotFlags(t: AdThread, offset: int, bs: seq<Batch>, range: Value)
    requires TriggerProofs.Feed(Arm(t.acq, offset), bs).Ok?
    requires TriggerProofs.Feed(Arm(t.acq, offset), bs).value.enableEndDetected
    ensures var u := t.(acq := TriggerProofs.Feed(Arm(t.acq, offset), bs).value);
      GetQuantity(u, "enable_start_detected", range) == Some(Flag(true))
      && GetQuantity(u, "enable_end_detected", range) == Some(Flag(true))
      && GetQuantity(u, "timeout_detected", range) == Some(Flag(false))
  {
    var lo, hi := TriggerProofs.CompletedCaptureIsWindow(t.acq, offset, bs);
  }

  /** Read through `get_quantity_sync`, a shot that ended on the rising edge,
      with the stream's first 0 at `i >= 1`, delivers the stream's samples from
      just before the first 0 to the first 1 after it; `enable_start_s` reads
      `i / sps` and `enable_s` reads one sample period less than the window's
      duration. */
  lemma CompletedShotTimes(t: AdThread, offset: int, bs: seq<Batch>, i: nat, range: Value)
    requires TriggerProofs.Feed(Arm(t.acq, offset), bs).Ok?
    requires TriggerProofs.Feed(Arm(t.acq, offset), bs).value.enableEndDetected
    requires FindFirst(TriggerProofs.Received(offset, bs).disable, false) == Some(i) && i >= 1
    ensures var u := t.(acq := TriggerProofs.Feed(Arm(t.acq, offset), bs).value);
      var w := TriggerProofs.ExpectedWindow(TriggerProofs.Received(offset, bs));
      w.Some? && u.acq.capturer == w
      && GetQuantity(u, "enable_start_s", range) == Some(Num(i as real / t.acq.sps))
      && GetQuantity(u, "enable_s", range) == Some(Num((w.value.Length() - 1) as real / t.acq.sps))
  {
    TriggerProofs.CompletedCaptureMatchesReference(t.acq, offset, bs, i);
    TriggerProofs.FeedKeepsConfig(Arm(t.acq, offset), bs);
  }

  /** Read through `get_quantity_sync`, a shot that timed out reports the
      timeout and no rising edge. The start flag and time report the falling
      edge if one came first, at the time of the stream's first 0; otherwise
      they read false and 0.0, and the samples the capture covered held no 0. */
  lemma TimedOutShotReadout(t: AdThread, offset: int, bs: seq<Batch>, range: Value)
    requires TriggerProofs.Feed(Arm(t.acq, offset), bs).Ok?
    requires TriggerProofs.Feed(Arm(t.acq, offset), bs).value.timeoutDetected
    ensures var u := t.(acq := TriggerProofs.Feed(Arm(t.acq, offset), bs).value);
      GetQuantity(u, "timeout_detected", range) == Some(Flag(true))
      && GetQuantity(u, "enable_end_detected", range) == Some(Flag(false))
    ensures var z := TriggerProofs.Feed(Arm(t.acq, offset), bs).value;
      var u := t.(acq := z);
      var s := TriggerProofs.Received(offset, bs);
      if z.enableStartDetected then
        GetQuantity(u, "enable_start_detected", range) == Some(Flag(true))
        && FindFirst(s.disable, false).Some?
        && GetQuantity(u, "enable_start_s", range)
           == Some(Num(FindFirst(s.disable, false).value as real / t.acq.sps))
      else
        GetQuantity(u, "enable_start_detected", range) == Some(Flag(false))
        && GetQuantity(u, "enable_start_s", range) == Some(Num(0.0))
        && z.capturer.Some? && z.capturer.value.Length() <= s.Length()
        && false !in s.disable[..z.capturer.value.Length()]
  {
    TriggerProofs.TimedOutCapture(t.acq, offset, bs);
    TriggerProofs.FeedKeepsConfig(Arm(t.acq, offset), bs);
  }
}

=== FILE: py_slice.dfy ===
/** Python's slicing rules for `s[k:]` and `s[:k]` with one integer bound, as numpy
    applies them to the channel arrays: a negative bound counts from the end, and
    any bound is clamped into the sequence. */
module PySlice {
  function Min(a: int, b: int): int { if a <= b then a else b }

  function Max(a: int, b: int): int { if a <= b then b else a }

  /** The position a bound `k` denotes in a sequence of length `n`. */
  function Bound(n: nat, k: int): (r: nat)
    ensures r <= n
  {
    if k < 0 then (if n + k < 0 then 0 else n + k)
    else if k > n then n
    else k
  }

  /** `s[k:]` */
  function From<T>(s: seq<T>, k: int): (r: seq<T>)
    ensures |r| <= |s| && r == s[|s| - |r|..]
    ensures 0 <= k ==> |r| == Max(0, |s| - k)
    ensures k < 0 ==> |r| == Min(|s|, -k)
  {
    s[Bound(|s|, k)..]
  }

  /** `s[:k]` */
  function To<T>(s: seq<T>, k: int): (r: seq<T>)
    ensures |r| <= |s| && r == s[..|r|]
    ensures 0 <= k ==> |r| == Min(|s|, k)
    ensures k < 0 ==> |r| == Max(0, |s| + k)
  {
    s[..Bound(|s|, k)]
  }

  /** Python's identity `s[:k] + s[k:] == s`, for every integer `k`. */
  lemma SplitJoins<T>(s: seq<T>, k: int)
    ensures To(s, k) + From(s, k) == s
  {
    var b := Bound(|s|, k);
    assert s[..b] + s[b..] == s;
  }
}

=== FILE: trigger.dfy ===
/** The `Acquistion` trigger state machine of `ad_thread.py`. While CAPTURING it
    collects batches, looks on `IN_disable` first for a falling edge (a 0) and then
    for a rising edge (a 1), and returns to ARMED once both edges are seen or the
    capture grows longer than the timeout sample count. */
module Trigger {
  import opened Wrappers
  import opened CaptureBuffer

  datatype State = Armed | Capturing

  type PosReal = x: real | x > 0.0 witness 1.0

  /** A filter setting of the converter (`RegisterFilter1`): an enumerated value
      with a positive sample rate. The members live in code outside this model. */
  datatype Filter = Filter(name: string, sps: real)

  type RegisterFilter = f: Filter | f.sps > 0.0 witness Filter("", 1.0)

  /** Exceptions the state machine can raise. */
  datatype Error =
    | IndexError   // numpy: writing sample 0 of an empty `IN_disable` array

  /** The fields of `Acquistion` that the state machine reads or writes.
      `firstSample` is `_IN_disable_first_measurement`, the saved sample 0 of
      `IN_disable`; `done` is whether `done_event` is set. */
  datatype Acquisition = Acquisition(
    state: State,
    capturer: Option<Channels>,
    sps: PosReal,
    timeoutDetected: bool,
    enableStartDetected: bool,
    enableEndDetected: bool,
    enableStartS: real,
    enableS: real,
    durationMaxS: real,
    durationMaxSample: int,
    firstSample: bool,
    startOffset: int,
    done: bool)

  /** The dataclass defaults. */
  const Initial: Acquisition :=
    Acquisition(Armed, None, 1.0, false, false, false, 0.0, 0.0, 4.2, 42, true, 0, false)

  /** Python's `int()` on a float: truncation toward zero. */
  function Trunc(x: real): int {
    if 0.0 <= x then x.Floor else -((-x).Floor)
  }

  /** `Trunc` is the integer next to `x` on the side of zero. */
  lemma TruncTowardZero(x: real)
    ensures 0.0 <= x ==> 0 <= Trunc(x) && Trunc(x) as real <= x < Trunc(x) as real + 1.0
    ensures x < 0.0 ==> Trunc(x) <= 0 && Trunc(x) as real - 1.0 < x <= Trunc(x) as real
  {
  }

  /** The timeout sample count agrees with the duration and the rate. */
  predicate ConfigConsistent(a: Acquisition) {
    a.durationMaxSample == Trunc(a.durationMaxS * a.sps)
  }

  /** The configuration part of the record: rate, duration, timeout count and
      start offset. */
  predicate SameConfig(a: Acquisition, b: Acquisition) {
    a.sps == b.sps && a.durationMaxS == b.durationMaxS
    && a.durationMaxSample == b.durationMaxSample && a.startOffset == b.startOffset
  }

  /** `set_SPS` followed by `_update_sps`: only the rate and the derived timeout
      count change, and they agree afterwards. */
  function SetSps(a: Acquisition, f: RegisterFilter): (r: Acquisition)
    ensures r.sps == f.sps && ConfigConsistent(r)
    ensures r.(sps := a.sps, durationMaxSample := a.durationMaxSample) == a
  {
    a.(sps := f.sps, durationMaxSample := Trunc(a.durationMaxS * f.sps))
  }

  /** The `duration_max_s` setter: stores the value unchecked and recomputes the
      timeout count; nothing else changes. */
  function SetDurationMax(a: Acquisition, x: real): (r: Acquisition)
    ensures r.durationMaxS == x && ConfigConsistent(r)
    ensures r.(durationMaxS := a.durationMaxS, durationMaxSample := a.durationMaxSample) == a
  {
    a.(durationMaxS := x, durationMaxSample := Trunc(x * a.sps))
  }

  /** `_done`: signal completion and go back to ARMED. */
  function Done(a: Acquisition): (r: Acquisition)
    ensures r.state == Armed && r.done
    ensures r.(state := a.state, done := a.done) == a
  {
    a.(done := true, state := Armed)
  }

  /** The reset half of `wait_for_acquisition`: forget the previous shot, start
      CAPTURING from `offset` and clear the completion signal. The rate, the
      duration and the saved sample 0 survive. */
  function Arm(a: Acquisition, offset: int): (r: Acquisition)
    ensures r.state == Capturing && r.capturer.None? && !r.done && r.startOffset == offset
    ensures !r.timeoutDetected && !r.enableStartDetected && !r.enableEndDetected
    ensures r.enableStartS == 0.0 && r.enableS == 0.0
    ensures r.sps == a.sps && r.durationMaxS == a.durationMaxS
    ensures r.durationMaxSample == a.durationMaxSample && r.firstSample == a.firstSample
  {
    a.(capturer := None, timeoutDetected := false, enableStartDetected := false,
       enableEndDetected := false, enableStartS := 0.0, enableS := 0.0,
       state := Capturing, startOffset := offset, done := false)
  }

  /** `Acquistion.append`: the first batch after arming becomes the capture from
      the start offset on; later batches are appended whole. Only the capture
      changes. */
  function Append(a: Acquisition, b: Batch): (r: Acquisition)
    ensures r.capturer.Some?
    ensures r.(capturer := a.capturer) == a
    ensures a.capturer.None? ==> r.capturer.value == LimitBegin(b, a.startOffset)
    ensures a.capturer.Some? && a.capturer.value.Aligned() ==>
      LimitEnd(r.capturer.value, a.capturer.value.Length()) == a.capturer.value
      && LimitBegin(r.capturer.value, a.capturer.value.Length()) == b
  {
    match a.capturer
    case None => a.(capturer := Some(b.SliceFrom(a.startOffset)))
    case Some(c) => a.(capturer := Some(CaptureBuffer.Append(c, b)))
  }

  /** The result of one `found_raising_edge` call: the new record and the
      returned flag (true only on timeout). */
  datatype Step = Step(acq: Acquisition, timedOut: bool)

  /** The call can settle an edge: a 0 is present while no falling edge is
      known, or a 1 is present after it. */
  predicate EdgeAvailable(a: Acquisition)
    requires a.capturer.Some?
  {
    if a.enableStartDetected then true in a.capturer.value.disable
    else false in a.capturer.value.disable
  }

  /** `found_raising_edge`. Exactly one of: the falling edge is found (capture
      trimmed to one pre-roll sample, sample 0 saved and masked, no timeout
      check); the rising edge is found (sample 0 restored, capture cut after one
      post-roll sample, back to ARMED); or the timeout test runs. It times out iff
      no edge is available and the capture is strictly longer than the timeout
      count; it raises only when that happens with an empty capture. */
  function FoundRaisingEdge(a: Acquisition): (r: Result<Step, Error>)
    requires a.capturer.Some?
    ensures r.Ok? ==> SameConfig(a, r.value.acq) && r.value.acq.capturer.Some?
    ensures r.Err? <==>
      !EdgeAvailable(a) && a.capturer.value.Length() == 0 && a.durationMaxSample < 0
    ensures r.Ok? ==> (r.value.timedOut <==>
      !EdgeAvailable(a) && a.capturer.value.Length() > a.durationMaxSample)
    ensures r.Ok? ==> (r.value.acq.state == Armed <==>
      a.state == Armed || r.value.timedOut || (a.enableStartDetected && EdgeAvailable(a)))
    ensures r.Ok? ==> r.value.acq.capturer.value.Length() <= a.capturer.value.Length()
    ensures r.Ok? && a.capturer.value.Aligned() ==> r.value.acq.capturer.value.Aligned()
  {
    var c := a.capturer.value;
    var edge := FindFirst(c.disable, a.enableStartDetected);
    if edge.Some? then
      if a.enableStartDetected then Ok(OnRisingEdge(a, edge.value))
      else Ok(OnFallingEdge(a, edge.value))
    else CheckTimeout(a)
  }

  /** The falling-edge branch of `found_raising_edge`, for the first 0 at `i`. */
  function OnFallingEdge(a: Acquisition, i: nat): (r: Step)
    requires a.capturer.Some? && i < a.capturer.value.Length()
    ensures SameConfig(a, r.acq) && r.acq.capturer.Some? && !r.timedOut
    ensures r.acq.state == a.state && r.acq.done == a.done && r.acq.enableStartDetected
    ensures r.acq.enableEndDetected == a.enableEndDetected && r.acq.timeoutDetected == a.timeoutDetected
    ensures r.acq.capturer.value.Length() <= a.capturer.value.Length()
    ensures a.capturer.value.Aligned() ==> r.acq.capturer.value.Aligned()
  {
    var trimmed := LimitBegin(a.capturer.value, i - 1);
    Step(a.(capturer := Some(trimmed.WithFirst(false)),
            firstSample := trimmed.disable[0],
            enableStartDetected := true,
            enableStartS := i as real / a.sps), false)
  }

  /** The rising-edge branch of `found_raising_edge`, for the first 1 at `j`. */
  function OnRisingEdge(a: Acquisition, j: nat): (r: Step)
    requires a.capturer.Some? && j < a.capturer.value.Length()
    ensures SameConfig(a, r.acq) && r.acq.capturer.Some? && !r.timedOut
    ensures r.acq.state == Armed && r.acq.done && r.acq.enableEndDetected
    ensures r.acq.enableStartDetected == a.enableStartDetected && r.acq.timeoutDetected == a.timeoutDetected
    ensures r.acq.capturer.value.Length() <= a.capturer.value.Length()
    ensures a.capturer.value.Aligned() ==> r.acq.capturer.value.Aligned()
  {
    var restored := a.capturer.value.WithFirst(a.firstSample);
    Step(Done(a.(capturer := Some(LimitEnd(restored, j + 1)),
                 enableEndDetected := true,
                 enableS := j as real / a.sps)), false)
  }

  /** The timeout test that ends `found_raising_edge` when no edge was found. */
  function CheckTimeout(a: Acquisition): (r: Result<Step, Error>)
    requires a.capturer.Some?
    ensures r.Err? <==> a.capturer.value.Length() == 0 && a.durationMaxSample < 0
    ensures r.Ok? ==> SameConfig(a, r.value.acq) && r.value.acq.capturer.Some?
    ensures r.Ok? ==> (r.value.timedOut <==> a.capturer.value.Length() > a.durationMaxSample)
    ensures r.Ok? ==> r.value.acq.timeoutDetected == r.value.timedOut
    ensures r.Ok? ==> r.value.acq.state == (if r.value.timedOut then Armed else a.state)
    ensures r.Ok? ==> r.value.acq.done == (r.value.timedOut || a.done)
    ensures r.Ok? ==> r.value.acq.enableStartDetected == a.enableStartDetected
    ensures r.Ok? ==> r.value.acq.enableEndDetected == a.enableEndDetected
    ensures r.Ok? ==> r.value.acq.capturer.value.Length() == a.capturer.value.Length()
    ensures r.Ok? && a.capturer.value.Aligned() ==> r.value.acq.capturer.value.Aligned()
  {
    var c := a.capturer.value;
    if c.Length() > a.durationMaxSample then
      if c.Length() == 0 then Err(IndexError)
      else Ok(Step(Done(a.(timeoutDetected := true, capturer := Some(c.WithFirst(a.firstSample)))), true))
    else
      Ok(Step(a.(timeoutDetected := false), false))
  }

  /** `handle_state` inside `AdThread.run`: a batch is appended and examined only
      while CAPTURING; in ARMED it is dropped. */
  function HandleState(a: Acquisition, b: Batch): (r: Result<Acquisition, Error>)
    ensures a.state == Armed ==> r == Ok(a)
    ensures a.state == Capturing && r.Ok? ==> SameConfig(a, r.value) && r.value.capturer.Some?
  {
    if a.state == Capturing then
      match FoundRaisingEdge(Append(a, b))
      case Ok(step) => Ok(step.acq)
      case Err(e) => Err(e)
    else Ok(a)
  }
}

=== FILE: trigger_examples.dfy ===
/** Concrete runs of the trigger logic, at one or two samples per second so
    that every time is a sample index or half of one. */
module TriggerExamples {
  import opened Wrappers
  import opened CaptureBuffer
  import opened Trigger
  import opened TriggerProofs

  /** Two filter settings; their names stand for members of `RegisterFilter1`. */
  const OneSps: RegisterFilter := Filter("1 SPS", 1.0)
  const TwoSps: RegisterFilter := Filter("2 SPS", 2.0)

  /** Armed after `run` applied the rate: the default duration 4.2 s gives a
      timeout count of 4 samples at 1 SPS and 8 samples at 2 SPS. */
  const ArmedAt1: Acquisition := Arm(SetSps(Initial, OneSps), 0)
  const ArmedAt2: Acquisition := Arm(SetSps(Initial, TwoSps), 0)

  lemma ArmedCounts()
    ensures ConfigConsistent(ArmedAt1) && ArmedAt1.durationMaxSample == 4
    ensures ConfigConsistent(ArmedAt2) && ArmedAt2.durationMaxSample == 8
  {
    assert Trunc(4.2 * 1.0) == 4;
    assert Trunc(4.2 * 2.0) == 8;
  }

  const Pulse: Batch := Channels([0.0, 1.0, 2.0, 3.0, 4.0, 5.0, 6.0, 7.0],
                                 [true, true, true, false, false, false, true, true],
                                 [false, false, false, false, false, false, false, false])

  /** The capture after the falling edge: samples 2..7 with the pre-roll
      sample masked to 0. */
  const MaskedPulse: Channels := Channels([2.0, 3.0, 4.0, 5.0, 6.0, 7.0],
                                     [false, false, false, false, true, true],
                                     [false, false, false, false, false, false])

  const AfterFall: Acquisition :=
    ArmedAt1.(capturer := Some(MaskedPulse), firstSample := true,
                     enableStartDetected := true, enableStartS := 3.0)

  lemma PulseFirstZero()
    ensures FindFirst(Pulse.disable, false) == Some(3)
  {
    assert Pulse.disable[3] == false;
    assert forall j :: 0 <= j < 3 ==> Pulse.disable[j];
  }

  lemma PulseArrivesWhole()
    ensures Trigger.Append(ArmedAt1, Pulse) == ArmedAt1.(capturer := Some(Pulse))
  {
    assert Pulse.SliceFrom(0) == Pulse.(voltage := Pulse.voltage[0..], disable := Pulse.disable[0..], t := Pulse.t[0..]);
  }

  lemma PulseMasked()
    ensures Pulse.Window(2, 8).WithFirst(false) == MaskedPulse
  {
    assert Pulse.Window(2, 8) == Channels([2.0, 3.0, 4.0, 5.0, 6.0, 7.0],
                                          [true, false, false, false, true, true],
                                          [false, false, false, false, false, false]);
  }

  /** The first batch finds the falling edge at sample 3 and keeps CAPTURING. */
  lemma PulseFalls()
    ensures HandleState(ArmedAt1, Pulse) == Ok(AfterFall)
  {
    var a1 := ArmedAt1.(capturer := Some(Pulse));
    PulseArrivesWhole();
    PulseFirstZero();
    PulseMasked();
    FallingEdgeStep(a1, 3);
  }

  /** The delivered capture: samples 2..6 of the pulse. */
  const Captured: Channels := Channels([2.0, 3.0, 4.0, 5.0, 6.0],
                                       [true, false, false, false, true],
                                       [false, false, false, false, false])

  const AfterRise: Acquisition :=
    AfterFall.(capturer := Some(Captured), enableEndDetected := true,
               enableS := 4.0, state := Armed, done := true)

  lemma PulseFirstOne()
    ensures FindFirst(MaskedPulse.disable, true) == Some(4)
  {
    assert MaskedPulse.disable[4];
    assert forall j :: 0 <= j < 4 ==> !MaskedPulse.disable[j];
  }

  /** The next call, with nothing new, finds the rising edge at sample 4 of
      the trimmed capture. */
  lemma PulseRises()
    ensures HandleState(AfterFall, Empty) == Ok(AfterRise)
  {
    var a2 := Trigger.Append(AfterFall, Empty);
    assert a2.capturer == Some(MaskedPulse) by {
      assert MaskedPulse.voltage + [] == MaskedPulse.voltage;
      assert MaskedPulse.disable + [] == MaskedPulse.disable;
      assert MaskedPulse.t + [] == MaskedPulse.t;
    }
    PulseFirstOne();
    RisingEdgeStep(a2, 4);
    assert MaskedPulse.WithFirst(true).Window(0, 5) == Captured;
  }

  /** A pulse whose enable is low on samples 3..5 yields the window 2..6: one
      pre-roll sample before the falling edge and one post sample at the rising
      edge. The rising edge is only looked for in a later call, here one with an
      empty batch. */
  lemma PulseIsCapturedWithPrePostSamples()
    ensures Feed(ArmedAt1, [Pulse, Empty]) == Ok(AfterRise)
    ensures AfterRise.capturer == Some(Captured) && Captured.Length() == 5
    ensures AfterRise.enableStartS == 3.0 && AfterRise.enableS == 4.0 && !AfterRise.timeoutDetected
  {
    PulseFalls();
    PulseRises();
    FeedTwo(ArmedAt1, Pulse, Empty, AfterFall);
  }

  /** The delivered capture is the stream's samples 2..6. */
  lemma CapturedIsWindow()
    ensures Pulse.Window(2, 7) == Captured
  {
  }

  /** Feeding two batches is two `handle_state` calls in order. */
  lemma FeedTwo(a: Acquisition, b1: Batch, b2: Batch, a1: Acquisition)
    requires HandleState(a, b1) == Ok(a1)
    ensures Feed(a, [b1, b2]) == HandleState(a1, b2)
  {
    assert Feed(a, []) == Ok(a);
    FeedStep(a, [], b1, a);
    assert [] + [b1] == [b1];
    FeedStep(a, [b1], b2, a1);
    assert [b1] + [b2] == [b1, b2];
  }

  /** Feeding three batches is three `handle_state` calls in order. */
  lemma FeedThree(a: Acquisition, b1: Batch, b2: Batch, b3: Batch, a1: Acquisition, a2: Acquisition)
    requires HandleState(a, b1) == Ok(a1) && HandleState(a1, b2) == Ok(a2)
    ensures Feed(a, [b1, b2, b3]) == HandleState(a2, b3)
  {
    FeedTwo(a, b1, b2, a1);
    FeedStep(a, [b1, b2], b3, a2);
    assert [b1, b2] + [b3] == [b1, b2, b3];
  }

  /* ----- three batches at two samples per second ----- */

  const High1: Batch := Channels([0.0, 1.0], [true, true], [false, false])
  const Low: Batch := Channels([2.0, 3.0], [false, false], [false, false])
  const High2: Batch := Channels([4.0, 5.0], [true, true], [false, false])

  /** The capture after the second batch, and after the third with sample 0
      masked. */
  const HighLow: Channels := Channels([0.0, 1.0, 2.0, 3.0], [true, true, false, false],
                                      [false, false, false, false])
  const MaskedLow: Channels := Channels([1.0, 2.0, 3.0], [false, false, false],
                                        [false, false, false])
  const MaskedLowHigh: Channels := Channels([1.0, 2.0, 3.0, 4.0, 5.0],
                                            [false, false, false, true, true],
                                            [false, false, false, false, false])
  /** The delivered capture: samples 1..4 of the stream. */
  const Shot2: Channels := Channels([1.0, 2.0, 3.0, 4.0], [true, false, false, true],
                                    [false, false, false, false])


  const AfterHigh: Acquisition := ArmedAt2.(capturer := Some(High1))

  const AfterLow: Acquisition :=
    ArmedAt2.(capturer := Some(MaskedLow), firstSample := true,
              enableStartDetected := true, enableStartS := 1.0)

  const ShotAt2: Acquisition :=
    AfterLow.(capturer := Some(Shot2), enableEndDetected := true, enableS := 1.5,
              state := Armed, done := true)

  lemma HighArrivesWhole()
    ensures Trigger.Append(ArmedAt2, High1) == AfterHigh
  {
    assert High1.SliceFrom(0) == High1.(voltage := High1.voltage[0..], disable := High1.disable[0..], t := High1.t[0..]);
  }

  /** No edge in the first batch, and two samples are within the timeout count. */
  lemma HighIsWaiting()
    ensures HandleState(ArmedAt2, High1) == Ok(AfterHigh)
  {
    HighArrivesWhole();
    ArmedCounts();
    assert !EdgeAvailable(AfterHigh);
    WithinLimitStep(AfterHigh);
  }

  lemma LowFirstZero()
    ensures FindFirst(HighLow.disable, false) == Some(2)
  {
    assert HighLow.disable[2] == false;
    assert forall j :: 0 <= j < 2 ==> HighLow.disable[j];
  }

  lemma LowArrives()
    ensures Trigger.Append(AfterHigh, Low) == AfterHigh.(capturer := Some(HighLow))
  {
    assert High1.Concat(Low) == HighLow;
  }

  lemma LowMasked()
    ensures HighLow.Window(1, 4).WithFirst(false) == MaskedLow
  {
    assert HighLow.Window(1, 4) == Channels([1.0, 2.0, 3.0], [true, false, false], [false, false, false]);
  }

  /** The first 0 is sample 2 of the stream: the capture starts at sample 1
      and `enable_start_s` is 2 / 2 = 1.0 s. */
  lemma LowFalls()
    ensures HandleState(AfterHigh, Low) == Ok(AfterLow)
  {
    var a2 := AfterHigh.(capturer := Some(HighLow));
    LowArrives();
    LowFirstZero();
    LowMasked();
    FallingEdgeStep(a2, 2);
  }

  lemma HighFirstOne()
    ensures FindFirst(MaskedLowHigh.disable, true) == Some(3)
  {
    assert MaskedLowHigh.disable[3];
    assert forall j :: 0 <= j < 3 ==> !MaskedLowHigh.disable[j];
  }

  /** The first 1 of the masked capture is at 3: four samples are kept and
      `enable_s` is 3 / 2 = 1.5 s. */
  lemma HighRises()
    ensures HandleState(AfterLow, High2) == Ok(ShotAt2)
  {
    var a3 := AfterLow.(capturer := Some(MaskedLowHigh));
    assert MaskedLow.Concat(High2) == MaskedLowHigh;
    HighFirstOne();
    RisingEdgeStep(a3, 3);
    assert MaskedLowHigh.WithFirst(true).Window(0, 4) == Shot2;
  }

  /** Batches `[1,1]`, `[0,0]`, `[1,1]` at 2 samples per second deliver 4
      samples with `enable_start_s = 1.0` and `enable_s = 1.5`. */
  lemma ThreeBatchShot()
    ensures Feed(ArmedAt2, [High1, Low, High2]) == Ok(ShotAt2)
    ensures ShotAt2.capturer == Some(Shot2) && Shot2.Length() == 4
    ensures ShotAt2.enableStartS == 1.0 && ShotAt2.enableS == 1.5 && !ShotAt2.timeoutDetected
  {
    HighIsWaiting();
    LowFalls();
    HighRises();
    FeedThree(ArmedAt2, High1, Low, High2, AfterHigh, AfterLow);
  }
}

=== FILE: trigger_proofs.dfy ===
/** Properties of the trigger state machine: the outcome of each kind of
    `found_raising_edge` call, the effect of arming, and, over a whole run of
    batches after arming, where the delivered capture lies in the received
    sample stream. */
module TriggerProofs {
  import opened Wrappers
  import opened CaptureBuffer
  import opened Trigger

  /* ----- single calls of found_raising_edge ----- */

  /** Falling edge: the first 0 at `i` trims the capture to start one sample
      earlier (for `i == 0` the slice `[-1:]` keeps only the last sample), saves
      that pre-roll sample and masks it with 0, records `i / sps`, stays
      CAPTURING and reports no timeout, however long the capture is. When
      `i >= 1` the saved pre-roll sample is a 1. */
  lemma FallingEdgeStep(a: Acquisition, i: nat)
    requires a.capturer.Some? && a.capturer.value.Aligned() && !a.enableStartDetected
    requires FindFirst(a.capturer.value.disable, false) == Some(i)
    ensures var c := a.capturer.value;
      var lo: nat := if i >= 1 then i - 1 else c.Length() - 1;
      FoundRaisingEdge(a) == Ok(Step(a.(capturer := Some(c.Window(lo, c.Length()).WithFirst(false)),
                                       firstSample := c.disable[lo],
                                       enableStartDetected := true,
                                       enableStartS := i as real / a.sps), false))
    ensures FoundRaisingEdge(a).value.acq.state == a.state
    ensures i >= 1 ==> FoundRaisingEdge(a).value.acq.firstSample
  {
  }

  /** Rising edge: the first 1 at `j` of the masked capture restores sample 0,
      keeps samples `0..j` (one post-roll sample), records `j / sps`, signals
      completion and goes back to ARMED, reporting no timeout. */
  lemma RisingEdgeStep(a: Acquisition, j: nat)
    requires a.capturer.Some? && a.capturer.value.Aligned() && a.enableStartDetected
    requires FindFirst(a.capturer.value.disable, true) == Some(j)
    ensures var c := a.capturer.value;
      FoundRaisingEdge(a) == Ok(Step(a.(capturer := Some(c.WithFirst(a.firstSample).Window(0, j + 1)),
                                       enableEndDetected := true,
                                       enableS := j as real / a.sps,
                                       state := Armed,
                                       done := true), false))
  {
  }

  /** Timeout: with no edge available and more samples than the timeout count,
      sample 0 is overwritten with the saved sample (even when no falling edge
      was found in this shot), completion is signalled and the call returns true. */
  lemma TimeoutStep(a: Acquisition)
    requires a.capturer.Some? && !EdgeAvailable(a)
    requires a.capturer.value.Length() > a.durationMaxSample && a.capturer.value.Length() > 0
    ensures FoundRaisingEdge(a) ==
      Ok(Step(a.(timeoutDetected := true,
                 capturer := Some(a.capturer.value.WithFirst(a.firstSample)),
                 state := Armed,
                 done := true), true))
  {
  }

  /** The timeout comparison is strict: at exactly the timeout count the call
      keeps CAPTURING and only clears `timeoutDetected`. */
  lemma WithinLimitStep(a: Acquisition)
    requires a.capturer.Some? && !EdgeAvailable(a)
    requires a.capturer.value.Length() <= a.durationMaxSample
    ensures FoundRaisingEdge(a) == Ok(Step(a.(timeoutDetected := false), false))
  {
  }

  /** With the stale saved sample 0 of an earlier shot being a 0, a shot that
      times out without any falling edge reports a 0 at sample 0 although the
      line was high throughout. */
  lemma TimeoutWithoutEdgeWritesStaleSample()
    ensures var c := Channels([0.0, 0.0], [true, true], [false, false]);
      var a := Initial.(state := Capturing, capturer := Some(c), durationMaxSample := 1,
                        firstSample := false);
      FoundRaisingEdge(a).Ok? && FoundRaisingEdge(a).value.timedOut
      && FoundRaisingEdge(a).value.acq.capturer.value.disable == [false, true]
  {
    var c := Channels([0.0, 0.0], [true, true], [false, false]);
    var a := Initial.(state := Capturing, capturer := Some(c), durationMaxSample := 1,
                      firstSample := false);
    assert !EdgeAvailable(a);
    TimeoutStep(a);
  }

  /* ----- configuration ----- */

  /** The dataclass defaults disagree: `int(4.2 * 1.0)` is 4, not 42. The
      timeout count is only consistent once the rate or the duration is set. */
  lemma InitialIsInconsistent()
    ensures !ConfigConsistent(Initial)
    ensures ConfigConsistent(SetDurationMax(Initial, Initial.durationMaxS))
  {
    assert Trunc(4.2) == 4;
  }

  /** Arming, appending and `found_raising_edge` never touch the rate, the
      duration or the timeout count, so a consistent timeout count stays
      consistent. */
  lemma StepsKeepConfig(a: Acquisition, b: Batch, offset: int)
    requires ConfigConsistent(a)
    ensures ConfigConsistent(Arm(a, offset)) && ConfigConsistent(Trigger.Append(a, b))
    ensures a.capturer.Some? && FoundRaisingEdge(a).Ok? ==> ConfigConsistent(FoundRaisingEdge(a).value.acq)
    ensures HandleState(a, b).Ok? ==> ConfigConsistent(HandleState(a, b).value)
  {
    ConsistentTransfers(a, Arm(a, offset));
    ConsistentTransfers(a, Trigger.Append(a, b));
    if a.capturer.Some? && FoundRaisingEdge(a).Ok? {
      ConsistentTransfers(a, FoundRaisingEdge(a).value.acq);
    }
    var r := HandleState(a, b);
    if r.Ok? {
      ConsistentTransfers(a, r.value);
    }
  }

  lemma ConsistentTransfers(a: Acquisition, r: Acquisition)
    requires ConfigConsistent(a)
    requires r.sps == a.sps && r.durationMaxS == a.durationMaxS && r.durationMaxSample == a.durationMaxSample
    ensures ConfigConsistent(r)
  {
  }

  /* ----- arming ----- */

  /** Arming forgets the previous shot: two records that agree on the rate,
      the duration and the saved sample 0 arm to the same record. */
  lemma ArmForgetsPreviousShot(a1: Acquisition, a2: Acquisition, offset: int)
    requires a1.sps == a2.sps && a1.durationMaxS == a2.durationMaxS
    requires a1.durationMaxSample == a2.durationMaxSample && a1.firstSample == a2.firstSample
    ensures Arm(a1, offset) == Arm(a2, offset)
  {
  }

  /** The first batch after arming becomes the capture from the offset on (a
      short batch leaves an empty capture and the rest of the offset is not
      carried over); the second batch is appended whole. */
  lemma ArmThenAppend(a: Acquisition, offset: int, b1: Batch, b2: Batch)
    ensures Trigger.Append(Arm(a, offset), b1).capturer == Some(b1.SliceFrom(offset))
    ensures Trigger.Append(Trigger.Append(Arm(a, offset), b1), b2).capturer == Some(b1.SliceFrom(offset).Concat(b2))
  {
  }

  /* ----- a whole shot ----- */

  /** The samples received since arming: the first batch from the start offset
      on, then every later batch whole. */
  function Received(offset: int, bs: seq<Batch>): (s: Channels)
    ensures s.Aligned()
    decreases |bs|
  {
    if |bs| == 0 then Empty
    else if |bs| == 1 then LimitBegin(bs[0], offset)
    else Received(offset, bs[..|bs| - 1]).Concat(bs[|bs| - 1])
  }

  /** `handle_state` applied to every batch in order; an exception stops the run. */
  function Feed(a: Acquisition, bs: seq<Batch>): Result<Acquisition, Error>
    decreases |bs|
  {
    if |bs| == 0 then Ok(a)
    else
      match Feed(a, bs[..|bs| - 1])
      case Err(e) => Err(e)
      case Ok(a1) => HandleState(a1, bs[|bs| - 1])
  }

  /** Feeding one more batch is one more `handle_state` call. */
  lemma FeedStep(a: Acquisition, bs: seq<Batch>, b: Batch, a1: Acquisition)
    requires Feed(a, bs) == Ok(a1)
    ensures Feed(a, bs + [b]) == HandleState(a1, b)
  {
    assert (bs + [b])[..|bs|] == bs;
  }

  /** No run of batches changes the rate, the duration, the timeout count or
      the start offset. */
  lemma {:induction false} FeedKeepsConfig(a: Acquisition, bs: seq<Batch>)
    requires Feed(a, bs).Ok?
    ensures SameConfig(a, Feed(a, bs).value)
    decreases |bs|
  {
    if |bs| > 0 {
      FeedKeepsConfig(a, bs[..|bs| - 1]);
    }
  }

  /** The falling edge is the first 0 of the received stream, at `i`; the
      recorded time is `i / sps` and, when `i >= 1`, the capture starts at the
      pre-roll sample `i - 1`. */
  ghost predicate FallingEdgeAt(a: Acquisition, s: Channels, lo: nat) {
    FindFirst(s.disable, false).Some?
    && var i := FindFirst(s.disable, false).value;
    a.enableStartS == i as real / a.sps && (i >= 1 ==> lo + 1 == i)
  }

  /** After the falling edge: the capture is the received stream from `lo` on,
      with sample 0 masked by a 0 and the original kept in `firstSample`. */
  ghost predicate Masked(a: Acquisition, c: Channels, s: Channels, lo: nat)
    requires s.Aligned()
  {
    lo < s.Length() && c.Length() == s.Length() - lo && !c.disable[0]
    && c.WithFirst(a.firstSample) == s.Window(lo, s.Length())
    && FallingEdgeAt(a, s, lo)
  }

  /** After the rising edge: the capture is the window `lo .. lo+n-1` of the
      received stream, with a 1 as its last sample and only 0s between the first
      and the last; `enable_s` is `(n-1) / sps`. */
  ghost predicate EdgeWindow(a: Acquisition, c: Channels, s: Channels, lo: nat)
    requires s.Aligned()
  {
    c.Length() >= 2 && lo + c.Length() <= s.Length()
    && c == s.Window(lo, lo + c.Length())
    && c.disable[c.Length() - 1]
    && (forall k :: 1 <= k < c.Length() - 1 ==> !c.disable[k])
    && a.enableS == (c.Length() - 1) as real / a.sps
    && FallingEdgeAt(a, s, lo)
  }

  /** How the record relates to the received stream `s` during one shot. */
  ghost predicate Tracks(a: Acquisition, s: Channels, lo: nat) {
    s.Aligned() && (!a.enableStartDetected ==> a.enableStartS == 0.0) &&
    match a.capturer
    case None =>
      a.state == Capturing && s.Length() == 0 && !a.enableStartDetected
      && !a.enableEndDetected && !a.timeoutDetected && !a.done
    case Some(c) =>
      if a.state == Capturing then
        !a.done && !a.enableEndDetected && !a.timeoutDetected
        && (if a.enableStartDetected then Masked(a, c, s, lo) else c == s)
      else
        a.done && a.enableEndDetected != a.timeoutDetected
        && (a.timeoutDetected ==> c.Length() > a.durationMaxSample)
        && (a.enableStartDetected ==> FallingEdgeAt(a, s, lo))
        && (!a.enableStartDetected ==> c.Length() <= s.Length() && false !in s.disable[..c.Length()])
        && (a.enableEndDetected ==> a.enableStartDetected && EdgeWindow(a, c, s, lo))
  }

  lemma WindowOfConcat(s: Channels, u: Batch, lo: nat, hi: nat)
    requires s.Aligned() && lo <= hi <= s.Length()
    ensures s.Concat(u).Aligned() && s.Concat(u).Window(lo, hi) == s.Window(lo, hi)
  {
    assert (s.voltage + u.voltage)[lo..hi] == s.voltage[lo..hi];
    assert (s.disable + u.disable)[lo..hi] == s.disable[lo..hi];
    assert (s.t + u.t)[lo..hi] == s.t[lo..hi];
  }

  lemma SuffixOfConcat(s: Channels, u: Batch, lo: nat)
    requires s.Aligned() && lo <= s.Length()
    ensures s.Concat(u).Aligned()
    ensures s.Concat(u).Window(lo, s.Concat(u).Length()) == s.Window(lo, s.Length()).Concat(u)
  {
    assert (s.voltage + u.voltage)[lo..] == s.voltage[lo..] + u.voltage;
    assert (s.disable + u.disable)[lo..] == s.disable[lo..] + u.disable;
    assert (s.t + u.t)[lo..] == s.t[lo..] + u.t;
  }

  lemma FallingEdgeAtExtends(a: Acquisition, s: Channels, u: Batch, lo: nat)
    requires FallingEdgeAt(a, s, lo)
    ensures FallingEdgeAt(a, s.Concat(u), lo)
  {
    FindFirstExtends(s.disable, u.disable, false);
  }

  /** Appending a batch to a masked capture extends the received stream the same way. */
  lemma MaskedAppend(a: Acquisition, c: Channels, s: Channels, lo: nat, u: Batch)
    requires s.Aligned() && Masked(a, c, s, lo)
    ensures s.Concat(u).Aligned() && Masked(a, CaptureBuffer.Append(c, u), s.Concat(u), lo)
  {
    var c' := CaptureBuffer.Append(c, u);
    var s' := s.Concat(u);
    SuffixOfConcat(s, u, lo);
    WithFirstConcat(c, u, a.firstSample);
    FallingEdgeAtExtends(a, s, u, lo);
  }

  /** Replacing sample 0 commutes with appending a batch. */
  lemma WithFirstConcat(c: Channels, u: Batch, x: bool)
    requires c.Aligned() && 0 < c.Length()
    ensures CaptureBuffer.Append(c, u).WithFirst(x) == c.WithFirst(x).Concat(u)
  {
    assert (c.disable + u.disable)[0 := x] == c.disable[0 := x] + u.disable;
  }

  /** A capture equal to the received stream that meets its first 0 enters the
      masked state. */
  lemma FallingEdgeMasks(a: Acquisition, s: Channels)
    requires s.Aligned() && a.capturer == Some(s) && !a.enableStartDetected
    requires FindFirst(s.disable, false).Some?
    ensures var i := FindFirst(s.disable, false).value;
      var lo: nat := if i >= 1 then i - 1 else s.Length() - 1;
      var a' := FoundRaisingEdge(a).value.acq;
      FoundRaisingEdge(a).Ok? && a'.enableStartDetected && a'.state == a.state
      && a'.done == a.done && a'.enableEndDetected == a.enableEndDetected
      && a'.timeoutDetected == a.timeoutDetected
      && Masked(a', a'.capturer.value, s, lo)
  {
    var i := FindFirst(s.disable, false).value;
    FallingEdgeStep(a, i);
    var lo: nat := if i >= 1 then i - 1 else s.Length() - 1;
    var a' := FoundRaisingEdge(a).value.acq;
    var w := s.Window(lo, s.Length());
    assert a'.capturer.value == w.WithFirst(false);
    MaskThenRestore(w, false);
  }

  /** Masking sample 0 and writing the saved value back restores the capture. */
  lemma MaskThenRestore(w: Channels, b: bool)
    requires 0 < w.Length()
    ensures w.WithFirst(b).WithFirst(w.disable[0]) == w
  {
    assert w.disable[0 := b][0 := w.disable[0]] == w.disable;
  }

  /** The rising edge found in a masked capture yields the edge window. */
  lemma RisingEdgeWindows(a: Acquisition, s: Channels, lo: nat)
    requires s.Aligned() && a.capturer.Some? && a.enableStartDetected
    requires Masked(a, a.capturer.value, s, lo)
    requires FindFirst(a.capturer.value.disable, true).Some?
    ensures var a' := FoundRaisingEdge(a).value.acq;
      FoundRaisingEdge(a).Ok? && a'.state == Armed && a'.done && a'.enableEndDetected
      && a'.timeoutDetected == a.timeoutDetected
      && EdgeWindow(a', a'.capturer.value, s, lo)
  {
    var c := a.capturer.value;
    var j := FindFirst(c.disable, true).value;
    RisingEdgeStep(a, j);
    MaskedPrefixIsWindow(a, c, s, lo, j);
  }

  /** Cutting a masked capture after its first 1 at `j`, with sample 0
      restored, gives the stream's window of `j + 1` samples from `lo`. */
  lemma MaskedPrefixIsWindow(a: Acquisition, c: Channels, s: Channels, lo: nat, j: nat)
    requires s.Aligned() && Masked(a, c, s, lo)
    requires FindFirst(c.disable, true) == Some(j)
    ensures 1 <= j && lo + j + 1 <= s.Length()
    ensures c.WithFirst(a.firstSample).Window(0, j + 1) == s.Window(lo, lo + j + 1)
    ensures var cw := s.Window(lo, lo + j + 1);
      cw.disable[j] && forall k :: 1 <= k < j ==> !cw.disable[k]
  {
    var w := c.WithFirst(a.firstSample);
    assert w.Window(0, j + 1) == s.Window(lo, lo + j + 1);
    var cw := w.Window(0, j + 1);
    forall k | 1 <= k < j ensures !cw.disable[k] {
      assert c.disable[k] != true;
    }
  }

  /** The stream after one more batch: the first batch after arming counts from
      the start offset on. */
  function NextReceived(a: Acquisition, s: Channels, b: Batch): Channels {
    if a.capturer.None? then LimitBegin(b, a.startOffset) else s.Concat(b)
  }

  /** Once ARMED the record ignores batches, and what it tracks stays true of
      the longer stream. */
  lemma ArmedTracks(a: Acquisition, s: Channels, lo: nat, b: Batch)
    requires Tracks(a, s, lo) && a.state == Armed
    ensures HandleState(a, b) == Ok(a) && Tracks(a, NextReceived(a, s, b), lo)
  {
    var c := a.capturer.value;
    if a.enableEndDetected {
      WindowOfConcat(s, b, lo, lo + c.Length());
    }
    if a.enableStartDetected {
      FallingEdgeAtExtends(a, s, b, lo);
    } else {
      assert (s.disable + b.disable)[..c.Length()] == s.disable[..c.Length()];
    }
  }

  /** The no-edge branch keeps tracking: either still CAPTURING with the same
      capture, or ARMED on a timeout. */
  lemma NoEdgeTracks(a: Acquisition, s: Channels, lo: nat)
    requires s.Aligned() && a.capturer.Some? && a.state == Capturing && !a.done && !a.enableEndDetected
    requires if a.enableStartDetected then Masked(a, a.capturer.value, s, lo) else a.capturer.value == s
    requires !a.enableStartDetected ==> a.enableStartS == 0.0
    requires !EdgeAvailable(a)
    requires CheckTimeout(a).Ok?
    ensures Tracks(CheckTimeout(a).value.acq, s, lo)
  {
    assert s.disable[..s.Length()] == s.disable;
  }

  /** A CAPTURING record whose capture is the masked stream suffix keeps
      tracking the stream through one `found_raising_edge` call. */
  lemma MaskedStepTracks(a: Acquisition, s: Channels, lo: nat)
    requires s.Aligned() && a.capturer.Some? && a.state == Capturing
    requires !a.done && !a.enableEndDetected && !a.timeoutDetected && a.enableStartDetected
    requires Masked(a, a.capturer.value, s, lo)
    requires FoundRaisingEdge(a).Ok?
    ensures Tracks(FoundRaisingEdge(a).value.acq, s, lo)
  {
    if FindFirst(a.capturer.value.disable, true).Some? {
      RisingEdgeWindows(a, s, lo);
    } else {
      assert FoundRaisingEdge(a) == CheckTimeout(a);
      NoEdgeTracks(a, s, lo);
    }
  }

  /** A CAPTURING record whose capture is the whole stream keeps tracking the
      stream through one `found_raising_edge` call. */
  lemma UnmaskedStepTracks(a: Acquisition, s: Channels, lo: nat) returns (lo': nat)
    requires s.Aligned() && a.capturer == Some(s) && a.state == Capturing
    requires !a.done && !a.enableEndDetected && !a.timeoutDetected && !a.enableStartDetected
    requires a.enableStartS == 0.0
    requires FoundRaisingEdge(a).Ok?
    ensures Tracks(FoundRaisingEdge(a).value.acq, s, lo')
  {
    var edge := FindFirst(s.disable, false);
    if edge.Some? {
      var i := edge.value;
      lo' := if i >= 1 then i - 1 else s.Length() - 1;
      FallingEdgeMasks(a, s);
    } else {
      lo' := lo;
      assert FoundRaisingEdge(a) == CheckTimeout(a);
      NoEdgeTracks(a, s, lo);
    }
  }

  /** While CAPTURING, the appended batch extends the tracked stream, and
      `found_raising_edge` then keeps tracking it. */
  lemma CapturingTracks(a: Acquisition, s: Channels, lo: nat, b: Batch) returns (lo': nat)
    requires Tracks(a, s, lo) && a.state == Capturing && HandleState(a, b).Ok?
    ensures Tracks(HandleState(a, b).value, NextReceived(a, s, b), lo')
  {
    var s' := NextReceived(a, s, b);
    var a1 := Trigger.Append(a, b);
    assert HandleState(a, b) == Ok(FoundRaisingEdge(a1).value.acq);
    if a.capturer.Some? && a.enableStartDetected {
      MaskedAppend(a, a.capturer.value, s, lo, b);
      MaskedStepTracks(a1, s', lo);
      lo' := lo;
    } else {
      lo' := UnmaskedStepTracks(a1, s', lo);
    }
  }

  /** One `handle_state` call keeps the record tracking the received stream. */
  lemma HandleStateTracks(a: Acquisition, s: Channels, lo: nat, b: Batch) returns (lo': nat)
    requires Tracks(a, s, lo) && HandleState(a, b).Ok?
    ensures Tracks(HandleState(a, b).value, NextReceived(a, s, b), lo')
  {
    if a.state == Armed {
      ArmedTracks(a, s, lo, b);
      lo' := lo;
    } else {
      lo' := CapturingTracks(a, s, lo, b);
    }
  }

  /** After arming and any run of batches, the record tracks the stream
      received since arming; the capture exists exactly when a batch arrived. */
  lemma {:induction false} FeedTracks(a: Acquisition, offset: int, bs: seq<Batch>) returns (lo: nat)
    requires Feed(Arm(a, offset), bs).Ok?
    ensures Tracks(Feed(Arm(a, offset), bs).value, Received(offset, bs), lo)
    ensures Feed(Arm(a, offset), bs).value.capturer.None? <==> |bs| == 0
    ensures Feed(Arm(a, offset), bs).value.startOffset == offset
    decreases |bs|
  {
    if |bs| == 0 {
      lo := 0;
      ArmTracks(a, offset);
      return;
    }
    var init := bs[..|bs| - 1];
    var b := bs[|bs| - 1];
    var lo0 := FeedTracks(a, offset, init);
    var a0 := Feed(Arm(a, offset), init).value;
    assert Feed(Arm(a, offset), bs) == HandleState(a0, b);
    ReceivedStep(offset, bs, a0);
    lo := HandleStateTracks(a0, Received(offset, init), lo0, b);
  }

  /** Right after arming nothing has been received. */
  lemma ArmTracks(a: Acquisition, offset: int)
    ensures Tracks(Arm(a, offset), Received(offset, []), 0)
  {
  }

  /** The stream after one more batch, seen from the record before it. */
  lemma ReceivedStep(offset: int, bs: seq<Batch>, a0: Acquisition)
    requires |bs| > 0 && (a0.capturer.None? <==> |bs| == 1) && a0.startOffset == offset
    ensures Received(offset, bs) == NextReceived(a0, Received(offset, bs[..|bs| - 1]), bs[|bs| - 1])
  {
  }

  /** A shot that ends on the rising edge delivers a window `lo .. hi-1` of the
      received stream: a 1 at its last sample, only 0s strictly inside, and
      `enable_s` measured from the window's first (pre-roll) sample. The shot
      ends in ARMED with completion signalled and no timeout. */
  lemma CompletedCaptureIsWindow(a: Acquisition, offset: int, bs: seq<Batch>) returns (lo: nat, hi: nat)
    requires Feed(Arm(a, offset), bs).Ok? && Feed(Arm(a, offset), bs).value.enableEndDetected
    ensures var z := Feed(Arm(a, offset), bs).value;
      var s := Received(offset, bs);
      z.state == Armed && z.done && !z.timeoutDetected && z.enableStartDetected
      && lo + 2 <= hi <= s.Length()
      && z.capturer == Some(s.Window(lo, hi))
      && s.disable[hi - 1]
      && (forall k :: lo < k < hi - 1 ==> !s.disable[k])
      && z.enableS == (hi - 1 - lo) as real / z.sps
  {
    lo := FeedTracks(a, offset, bs);
    var z := Feed(Arm(a, offset), bs).value;
    hi := EdgeWindowInStream(z, z.capturer.value, Received(offset, bs), lo);
  }

  /** An `EdgeWindow` capture, read back in the stream's own indices. */
  lemma EdgeWindowInStream(z: Acquisition, c: Channels, s: Channels, lo: nat) returns (hi: nat)
    requires s.Aligned() && EdgeWindow(z, c, s, lo)
    ensures lo + 2 <= hi <= s.Length() && c == s.Window(lo, hi)
    ensures s.disable[hi - 1] && forall k :: lo < k < hi - 1 ==> !s.disable[k]
    ensures z.enableS == (hi - 1 - lo) as real / z.sps
  {
    hi := lo + c.Length();
    forall k | lo < k < hi - 1 ensures !s.disable[k] {
      assert s.disable[k] == c.disable[k - lo];
    }
  }

  /** Completion is signalled exactly when the machine is back in ARMED, and a
      completed shot ended in exactly one way: rising edge or timeout. While
      the shot runs, neither outcome is reported. */
  lemma {:induction false} ShotHasOneOutcome(a: Acquisition, offset: int, bs: seq<Batch>)
    requires Feed(Arm(a, offset), bs).Ok?
    ensures var z := Feed(Arm(a, offset), bs).value;
      (z.done <==> z.state == Armed)
      && (z.done ==> z.enableEndDetected != z.timeoutDetected)
      && (!z.done ==> !z.enableEndDetected && !z.timeoutDetected)
  {
    var lo := FeedTracks(a, offset, bs);
  }

  /** A shot that ends on a timeout has more samples than the timeout count and
      no rising edge. If a falling edge came first, `enable_start_s` is the
      time of the stream's first 0; otherwise it is still 0.0 and the samples
      the capture covered held no 0. */
  lemma TimedOutCapture(a: Acquisition, offset: int, bs: seq<Batch>)
    requires Feed(Arm(a, offset), bs).Ok? && Feed(Arm(a, offset), bs).value.timeoutDetected
    ensures var z := Feed(Arm(a, offset), bs).value;
      z.state == Armed && z.done && !z.enableEndDetected
      && z.capturer.Some? && z.capturer.value.Length() > z.durationMaxSample
    ensures var z := Feed(Arm(a, offset), bs).value;
      var s := Received(offset, bs);
      z.enableStartDetected ==>
        FindFirst(s.disable, false).Some?
        && z.enableStartS == FindFirst(s.disable, false).value as real / z.sps
    ensures var z := Feed(Arm(a, offset), bs).value;
      var s := Received(offset, bs);
      !z.enableStartDetected ==>
        z.enableStartS == 0.0 && z.capturer.Some?
        && z.capturer.value.Length() <= s.Length() && false !in s.disable[..z.capturer.value.Length()]
  {
    var lo := FeedTracks(a, offset, bs);
  }

  /** The window a shot should deliver, computed from the received stream alone
      when its first 0 is not at index 0: from the sample before the first 0 up
      to and including the first 1 after it. */
  function ExpectedWindow(s: Channels): Option<Channels>
    requires s.Aligned()
  {
    match FindFirst(s.disable, false)
    case None => None
    case Some(i) =>
      if i == 0 then None
      else
        match FindFrom(s.disable, true, i)
        case None => None
        case Some(k) => Some(s.Window(i - 1, k + 1))
  }

  /** When the received stream's first 0 is at `i >= 1`, a shot that ends on the
      rising edge delivers exactly `ExpectedWindow`, with `enable_start_s` equal
      to `i / sps` and `enable_s` counted from the pre-roll sample `i - 1`. */
  lemma CompletedCaptureMatchesReference(a: Acquisition, offset: int, bs: seq<Batch>, i: nat)
    requires Feed(Arm(a, offset), bs).Ok? && Feed(Arm(a, offset), bs).value.enableEndDetected
    requires FindFirst(Received(offset, bs).disable, false) == Some(i) && i >= 1
    ensures var z := Feed(Arm(a, offset), bs).value;
      z.capturer == ExpectedWindow(Received(offset, bs)) && z.capturer.Some?
      && z.enableStartS == i as real / z.sps
      && z.enableS == (z.capturer.value.Length() - 1) as real / z.sps
  {
    var lo := FeedTracks(a, offset, bs);
    var z := Feed(Arm(a, offset), bs).value;
    EdgeWindowIsExpected(z, z.capturer.value, Received(offset, bs), lo, i);
  }

  lemma EdgeWindowIsExpected(z: Acquisition, c: Channels, s: Channels, lo: nat, i: nat)
    requires s.Aligned() && EdgeWindow(z, c, s, lo)
    requires FindFirst(s.disable, false) == Some(i) && i >= 1
    ensures ExpectedWindow(s) == Some(c) && z.enableStartS == i as real / z.sps
  {
    assert FallingEdgeAt(z, s, lo);
    assert lo == i - 1;
    var hi := lo + c.Length();
    forall k | i <= k < hi - 1 ensures s.disable[k] != true {
      assert s.disable[k] == c.disable[k - lo];
    }
    assert s.disable[hi - 1] == c.disable[c.Length() - 1];
    FindFromIsUnique(s.disable, true, i, hi - 1);
    assert ExpectedWindow(s) == Some(s.Window(i - 1, hi));
  }
}

=== FILE: version_gate.dfy ===
/** The firmware-version gate in `AdThread.run`: the `PROGRAM` string reported
    by the board must not compare below the required string under Python's
    string ordering, and must not be shorter than it. */
module VersionGate {

  const Required: string := "ad_low_noise_float_2023(0.3.11)"

  /** Python's `a < b` on strings, comparing code points from index `k` on:
      the first differing character decides, and a proper prefix is smaller. */
  function LessFrom(a: string, b: string, k: nat): bool
    requires k <= |a| && k <= |b|
    decreases |a| - k
  {
    if k == |b| then false
    else if k == |a| then true
    else if a[k] != b[k] then a[k] < b[k]
    else LessFrom(a, b, k + 1)
  }

  /** Python's `a < b` on strings. */
  function Less(a: string, b: string): bool {
    LessFrom(a, b, 0)
  }

  /** `a` and `b` agree below `k` and differ at `k`. */
  ghost predicate FirstDifference(a: string, b: string, k: nat) {
    k < |a| && k < |b| && a[..k] == b[..k] && a[k] != b[k]
  }

  /** The check of `run`: raise unless the version is not smaller and not shorter. */
  predicate Accepted(program: string) {
    !(Less(program, Required) || |program| < |Required|)
  }

  /** `LessFrom` agrees with the textbook definition of lexicographic order on
      the part of the strings from `k` on. */
  lemma {:induction false} LessFromMeaning(a: string, b: string, k: nat)
    requires k <= |a| && k <= |b| && a[..k] == b[..k]
    ensures LessFrom(a, b, k) <==>
      (exists d: nat :: k <= d && FirstDifference(a, b, d) && a[d] < b[d])
      || (|a| < |b| && a == b[..|a|])
    decreases |a| - k
  {
    if k == |b| {
      assert b == a[..k];
      forall d | k <= d ensures !FirstDifference(a, b, d) {}
    } else if k == |a| {
      assert a == b[..|a|];
    } else if a[k] != b[k] {
      assert FirstDifference(a, b, k);
      forall d | k < d ensures !FirstDifference(a, b, d) {
        if d < |a| && d < |b| {
          assert a[..d][k] == a[k] && b[..d][k] == b[k];
        }
      }
      if |a| < |b| {
        assert a[k] != b[..|a|][k];
      }
    } else {
      assert a[..k + 1] == b[..k + 1] by {
        assert a[..k + 1] == a[..k] + [a[k]] && b[..k + 1] == b[..k] + [b[k]];
      }
      LessFromMeaning(a, b, k + 1);
      if FirstDifference(a, b, k) {
        assert false;
      }
    }
  }

  /** Python's `<` on strings is lexicographic order: `a < b` exactly when at
      the first difference `a` has the smaller character, or `a` is a proper
      prefix of `b`. */
  lemma LessMeaning(a: string, b: string)
    ensures Less(a, b) <==>
      (exists d: nat :: FirstDifference(a, b, d) && a[d] < b[d])
      || (|a| < |b| && a == b[..|a|])
  {
    LessFromMeaning(a, b, 0);
  }

  /** Two strings that differ below `n` have a first difference below `n`. */
  lemma {:induction false} FirstDifferenceBelow(a: string, b: string, k: nat, n: nat) returns (d: nat)
    requires k <= n <= |a| && n <= |b| && a[..k] == b[..k] && a[..n] != b[..n]
    ensures k <= d < n && FirstDifference(a, b, d)
    decreases n - k
  {
    if k == n {
      assert false;
    }
    if a[k] != b[k] {
      d := k;
    } else {
      assert a[..k + 1] == a[..k] + [a[k]] && b[..k + 1] == b[..k] + [b[k]];
      d := FirstDifferenceBelow(a, b, k + 1, n);
    }
  }

  /** There is at most one first difference. */
  lemma FirstDifferenceUnique(a: string, b: string, d1: nat, d2: nat)
    requires FirstDifference(a, b, d1) && FirstDifference(a, b, d2)
    ensures d1 == d2
  {
  }

  /** A version passes exactly when it is at least as long as the required one
      and either starts with it or beats it at the first differing character. */
  lemma AcceptedMeaning(program: string)
    ensures Accepted(program) <==>
      |program| >= |Required|
      && (program[..|Required|] == Required
          || exists d: nat :: FirstDifference(program, Required, d) && program[d] > Required[d])
  {
    LessMeaning(program, Required);
    var n := |Required|;
    if |program| >= n {
      if program[..n] == Required {
        forall d: nat | d < n ensures program[d] == Required[d] {
          assert program[..n][d] == program[d];
        }
      } else {
        assert Required[..n] == Required;
        var d0 := FirstDifferenceBelow(program, Required, 0, n);
        forall d: nat | FirstDifference(program, Required, d) ensures d == d0 {
          FirstDifferenceUnique(program, Required, d, d0);
        }
      }
    }
  }

  /** The required version itself and a later patch level pass; an older
      patch level, and a newer minor version written with fewer characters,
      are both refused. */
  lemma GateExamples()
    ensures Accepted("ad_low_noise_float_2023(0.3.11)")
    ensures Accepted("ad_low_noise_float_2023(0.3.12)")
    ensures !Accepted("ad_low_noise_float_2023(0.3.10)")
    ensures !Accepted("ad_low_noise_float_2023(0.3.9)")
    ensures !Accepted("ad_low_noise_float_2023(0.4.0)")
  {
    var same := "ad_low_noise_float_2023(0.3.11)";
    assert |Required| == 31;
    assert same[..31] == Required;
    AcceptedMeaning(same);
    var newer := "ad_low_noise_float_2023(0.3.12)";
    assert newer[..29] == Required[..29];
    assert FirstDifference(newer, Required, 29) && newer[29] > Required[29];
    AcceptedMeaning(newer);
    var older := "ad_low_noise_float_2023(0.3.10)";
    assert older[..29] == Required[..29];
    assert FirstDifference(older, Required, 29) && older[29] < Required[29];
    LessMeaning(older, Required);
  }
}

=== FILE: wrappers.dfy ===
/** Option and Result types shared by the model. */
module Wrappers {

  /** Python's `typing.Optional`: `None` or a value. */
  datatype Option<+T> = None | Some(value: T)

  /** The outcome of an operation that may raise: a value, or the exception it raises. */
  datatype Result<+T, +E> = Ok(value: T) | Err(error: E)
}
